=== FILE: README.md ===
# Pentaro: a model of the game engine

Pentaro is a falling-and-merging puzzle in a single React component. The
player drops penguin tokens into a walled container. Two touching tokens of
the same growth stage merge into one token of the next stage. Two tokens of
the last stage (the emperor) vanish for a flat bonus. The game ends when a
settled, old-enough token rests above the game-over line.

This project models the engine inside that component:

- the stage table and the radius derived from it;
- the per-frame integrator: frame time, gravity, speed limit, movement, and
  the walls and floor;
- the eight-pass pair scan, which schedules merges and vanishes in the
  removal and addition lists and hands non-merging contacts to the collision
  response;
- the deferred store update;
- the flush of score and punch charge;
- the loss detector, and the freeze of a finished game;
- the player commands: drop, pointer move, punch, restart and save score,
  including the trimmed name and the top-ten ranking.

The modules follow the program's structure:

| module | what it holds |
|---|---|
| `Stages` | the constants and the stage table |
| `Entities` | tokens, merge effects, and the values the engine takes from outside |
| `Integrator` | the per-token part of a frame |
| `Resolver` | the pair scan |
| `Store` | applying the scheduled removals and additions |
| `Ranking` | the saved ranking table |
| `Game` | the session state, the frame step, the commands, and whole histories of them (`Exec`, `Run`) |

Values the model does not compute are parameters:

- The square-root geometry is the `Physics` record of oracles:
  - `rescale` brings an over-fast velocity back to the speed limit;
  - `overlap` decides whether two tokens touch;
  - `contact` is the positional correction and impulse of a non-merging pair.

  Whether the speed limit applies is decided exactly, as `vx² + vy² > 144`.
- `Date.now()` is an `int` parameter and the animation timestamp is a `real`.
- `Math.random()` values are `Random01` values in [0, 1).

The pair scan records a log of its fusions, each a pair of indices and a
stage. The log is model bookkeeping: the counting, ordering and score
properties are stated against it.

## Model

| member | source | states |
|---|---|---|
| Stages.Radius | pentaro-game.jsx:149 | the radius of every stage lies between 13.5 and 72, and a token always fits between the walls |
| Stages.Reward | pentaro-game.jsx:240-261 | a fusion earns a positive amount: the next stage's table score for a merge, the 100-point bonus for a vanish of the last stage |
| Stages.StagesGrow | pentaro-game.jsx:15-23 | the table has seven stages, and size, score and radius strictly increase with the stage |
| Integrator.FrameDelta | pentaro-game.jsx:160 | the first frame counts as 1; later frames measure elapsed time in 16.67 ms units, exactly when under the cap of 2 and never more than the elapsed time |
| Integrator.ClampSpeed | pentaro-game.jsx:174-180 | a velocity within speed 12 is kept; with a sound rescaling any velocity ends within speed 12 |
| Integrator.Move | pentaro-game.jsx:171-184 | the token keeps its identity, moves by velocity times frame time, and gains exactly gravity times frame time when the result stays under the speed limit |
| Integrator.NoTunneling | pentaro-game.jsx:174-184 | with a sound rescaling a token moves at most 12 times the frame time in one frame |
| Integrator.Boundary | pentaro-game.jsx:190-209 | afterwards the token lies between the walls and above the floor; a left-wall hit puts it exactly at the left wall face and not moving left, with its horizontal speed reflected at 0.3; a right-wall hit does the same at the right wall face, not moving right; a floor hit puts it on the floor with its vertical speed reflected at 0.3 and its horizontal speed cut to 0.75, each snapped to zero below 0.5 and 0.1 respectively; a token touching nothing is unchanged |
| Integrator.BoundaryIdempotent | pentaro-game.jsx:190-209 | applying the wall and floor handling twice is the same as applying it once |
| Integrator.Integrate | pentaro-game.jsx:167-210 | after a frame's motion every token is inside the container and keeps its identity |
| Integrator.RestingTokenStays | pentaro-game.jsx:171-209 | a still token resting on the floor between the walls stays exactly where it is |
| Integrator.IntegrateAll | pentaro-game.jsx:167-210 | every token of the store moves on its own, and none changes identity or stage |
| Resolver.VisitPair | pentaro-game.jsx:220-295 | a pair fuses if and only if neither index is scheduled, the tokens overlap and share a stage; a merge schedules both, adds a next-stage token with the next free id at the midpoint, with the mean horizontal velocity and the mean vertical velocity less 2, capped at -1, and earns the next stage's score; a vanish schedules both and earns 100; otherwise nothing is scheduled; a skipped or non-overlapping pair leaves the scan unchanged, a contact replaces only tokens i and j by the contact response's motion, and no other token changes; the scan invariant is kept |
| Resolver.FuseKeepsInv | pentaro-game.jsx:235-263 | recording one fusion of two unscheduled tokens of the same stage keeps the scan invariant |
| Resolver.FuseKeepsLog | pentaro-game.jsx:235-248 | a new fusion lies within the frame, joins two same-stage tokens, is disjoint from the earlier ones, and adds exactly its two tokens to the removals |
| Resolver.FuseKeepsOutputs | pentaro-game.jsx:235-262 | after a new fusion the score, the added tokens with their consecutive ids, and the effects still match the fusion log |
| Resolver.MergesPlusVanishes | pentaro-game.jsx:240-263 | every fusion is a merge or a vanish |
| Resolver.RewardsNonNegative | pentaro-game.jsx:243-261 | a frame's score is never negative |
| Resolver.MembersContain | pentaro-game.jsx:241-248 | both tokens of every fusion are scheduled for removal |
| Resolver.PassesFrom | pentaro-game.jsx:216 | the remaining passes keep the scan invariant and only extend the scan's logs; when no two tokens overlap they return the scan unchanged |
| Resolver.RowsFrom | pentaro-game.jsx:217-218 | the outer loop, which skips a scheduled token, keeps the invariant and only extends the logs; it changes nothing when no two tokens overlap; when exactly one pair overlaps and shares a stage, it moves nothing, fuses no other pair, and fuses that pair if its first token is still ahead in this pass or another pass follows |
| Resolver.PairsFrom | pentaro-game.jsx:220-221 | the inner loop keeps the invariant and only extends the logs; it changes nothing when no two tokens overlap; when exactly one pair overlaps and shares a stage, it moves nothing, fuses no other pair, and fuses that pair if the pair is still ahead in this pass or another pass follows |
| Resolver.Resolve | pentaro-game.jsx:213-297 | each index is in at most one fusion, which is always with a later token of its own stage; exactly the fused indices are removed, two per fusion; one token is added per merge, with consecutive fresh ids; the score is the sum of the fusions' rewards; when no two tokens overlap nothing moves, fuses or scores |
| Resolver.SoleVisit | pentaro-game.jsx:220-248 | while one pair is the only overlapping one, a visit moves nothing and can fuse only that pair, which it does on that pair's first visit |
| Resolver.SolePairFuses | pentaro-game.jsx:216-248 | every pair i < j is visited: when exactly one pair of tokens overlaps and they share a stage, the frame fuses exactly that pair and moves no token |
| Resolver.FirstPairFuses | pentaro-game.jsx:216-248 | the scan begins with the pair (0, 1): when the first two tokens overlap and share a stage, they are the frame's first fusion |
| Resolver.ScanFacts | pentaro-game.jsx:213-297 | a finished scan, started empty, satisfies the resolver's guarantees about the original tokens |
| Store.Survivors | pentaro-game.jsx:301 | the kept indices are exactly those not scheduled for removal, in increasing order, and with the removed ones they account for every index |
| Store.ApplyChanges | pentaro-game.jsx:299-302 | the new store is the surviving tokens in their order followed by the added ones; its size is the old size minus the removed plus the added |
| Store.NothingRemoved | pentaro-game.jsx:300-302 | with nothing scheduled every token survives in place, as when the update is skipped |
| Store.ApplyKeepsIdsIncreasing | pentaro-game.jsx:299-302 | filtering keeps ids increasing, and appending fresh larger ids extends that order |
| Game.NextStage | pentaro-game.jsx:357 | the next stage is the floor of four times the random value, so one of 0 to 3 |
| Game.Initial | pentaro-game.jsx:100-147 | a new session is empty, unstarted, with no score or charge, and satisfies the session invariant; it holds the loaded best score and rankings, the id counter and the frame clock at 0, the drop position at the centre (175), no effects, and a freshly drawn stage |
| Game.Flush | pentaro-game.jsx:305-314 | a positive frame score is added to both score and charge and arms the punch once the charge reaches 50; a zero score changes nothing; the charge invariant is kept |
| Game.FindStuck | pentaro-game.jsx:322-339 | the loss detector finds a stuck token if and only if one exists |
| Game.CheckLoss | pentaro-game.jsx:322-339 | the game ends exactly when some token is above the line, settled and older than 2 seconds; the best score is raised to the detector's score; nothing else changes |
| Game.Scanned | pentaro-game.jsx:160-297 | the frame's tokens after motion and the scan keep their identities; every fusion pairs two same-stage tokens of the old store; ids, removals and score are those of the fusions; when no two moved tokens overlap, the scan returns exactly the moved tokens with nothing fused |
| Game.Step | pentaro-game.jsx:153-345 | a finished game is returned unchanged; otherwise the frame clock is set to the frame's timestamp and the drop state, queued stage and rankings are untouched |
| Game.Settle | pentaro-game.jsx:299-339 | the store becomes the survivors then the added tokens; score, charge and punch follow the flush; effects are queued; the loss verdict and best score follow the detector on the new store |
| Game.StepFusions | pentaro-game.jsx:233-263 | in one frame each token takes part in at most one merge or vanish, always with a later token of its own stage |
| Game.StepCount | pentaro-game.jsx:240-263 | each merge lowers the token count by one and uses one id; each vanish lowers it by two |
| Game.StepKeepsSurvivors | pentaro-game.jsx:299-302 | the tokens in no fusion survive the frame in their original order |
| Game.StepAppendsMerged | pentaro-game.jsx:250-260 | after the survivors come the merged tokens with consecutive fresh ids, none of stage 0 |
| Game.StepScore | pentaro-game.jsx:305-314 | the frame's score is the sum of its fusions' rewards; it is added to score and charge, and arms the punch at 50 |
| Game.StepLoss | pentaro-game.jsx:322-339 | a frame ends the game exactly when the new store holds a stuck token; the best score is raised to the score the detector reads |
| Game.StepKeepsWellFormed | pentaro-game.jsx:153-345 | a frame keeps the session invariant: valid stages, increasing ids below the next free id, non-negative score, and a punch armed exactly at 50 charge |
| Game.StepFreshOrKept | pentaro-game.jsx:250-251 | after a frame every token is either a token from before it or a merged token whose id the counter had not yet handed out |
| Game.OverIsFrozen | pentaro-game.jsx:154-157 | a finished game does not move, score or charge |
| Game.Drop | pentaro-game.jsx:362-388 | refused while the game is over or cooling down; otherwise appends a still token of the queued stage at the drop position, hanging from the drop line, with the next id, starts the game and the cool-down, and queues a new stage; nothing else in the session changes |
| Game.DropKeepsWellFormed | pentaro-game.jsx:362-375 | a drop keeps the session invariant, and the dropped token carries an id the counter had not handed out |
| Game.EndCooldown | pentaro-game.jsx:385 | the cool-down timer re-enables dropping and changes nothing else |
| Game.HandleMove | pentaro-game.jsx:391-396 | the drop position becomes the pointer position clamped to 50 to 300; ignored once the game is over |
| Game.Kick | pentaro-game.jsx:413-417 | a punched token keeps its place and gets a sideways kick under 7.5 either way and an upward one from 3 to under 11 |
| Game.Punch | pentaro-game.jsx:399-423 | only an armed, started, running game is punched; it spends 50 charge, stays armed exactly when 50 remain, and kicks every token; nothing else in the session changes; the charge invariant is kept |
| Game.Restart | pentaro-game.jsx:426-439 | a restart empties the store and clears score, charge, effects and the game-over and started flags; the queued stage is drawn afresh from the roll; the id counter, frame clock and stored records carry over |
| Game.SaveScore | pentaro-game.jsx:442-451 | the rankings stay sorted and at most ten long, drawn from the old ones plus the new entry; with sorted stored rankings the entry goes after every equal or higher score; nothing else changes |
| Game.Exec | pentaro-game.jsx:153-451 | every frame and command keeps the session invariant, never lowers the id counter, and leaves only tokens that were there before or carry an id the counter had not handed out |
| Game.Run | pentaro-game.jsx:153-451 | along any history the charge is never negative and the punch is armed only with 50 charge |
| Game.OverUntilRestart | pentaro-game.jsx:154-157 | once over, no frame or command other than a restart changes the tokens, score or charge, or resumes the game |
| Game.ExecWhileOver | pentaro-game.jsx:154-157 | one frame or command other than a restart leaves a finished game finished, with the same tokens, score and charge |
| Ranking.Trim | pentaro-game.jsx:443 | the trimmed name is empty exactly when the input is all white space; otherwise it is the input with leading and trailing white space removed, and starts and ends with a non-space character |
| Ranking.DisplayName | pentaro-game.jsx:443 | a blank name becomes "ななし"; any other name is stored trimmed |
| Ranking.Sort | pentaro-game.jsx:445 | the sorted list is a permutation in order of non-increasing score |
| Ranking.SortSorted | pentaro-game.jsx:445 | sorting an already ordered list changes nothing |
| Ranking.InsertKeepsOrder | pentaro-game.jsx:445 | placing an entry after every entry scoring at least as much keeps the list ordered |
| Ranking.Ranked | pentaro-game.jsx:444-446 | the new table is sorted, holds ten entries or all of them if fewer, and draws only from the old ones plus the new entry |
| Ranking.RankedKeepsBest | pentaro-game.jsx:445-446 | cutting to ten drops only entries scoring no more than the tenth kept one |
| Ranking.RankedInsertsInPlace | pentaro-game.jsx:444-446 | with sorted stored rankings, the new table is the old one with the entry placed after every equal or higher score, cut to ten |

## Left out

- Rotation and rotation speed are cosmetic and never feed back into motion, so they are not modelled.
- The square-root geometry is left to the `Physics` oracles: the rescaled velocity, the overlap test and the contact response. The contact response of `Physics.contact` is not computed.
- Rendering, the shake and punch animations, and the 30 fps render trigger are not modelled.
- The effect-cleanup timer that drops the oldest merge effect every 600 ms is not modelled; effects are only queued.
- Effects carry no id, because the source's id is `Date.now() + Math.random()` and is used only for display.
- Reading and writing local storage is not modelled. The stored best score and rankings are fields of the session, read once by `Game.Initial`.
- The name-input dialog and the skip button only toggle display state, so they are not modelled.
- `requestAnimationFrame` scheduling is modelled as a `Frame` command carrying its timestamp, clock value and oracles. The cool-down `setTimeout` is the `CooldownOver` command.
- A missing container element and a pointer event without a coordinate, which gives NaN, are not modelled. `Game.HandleMove` takes a real pointer position relative to the container.
- Game.CheckLoss: the best score is raised to the score before the frame's flush. The detector reads the score through a ref that is synchronised only after rendering, so points earned in the frame that ends the game are not counted. The model takes the ref to hold the previous frame's score.
- Integrator.FrameDelta follows the code, which caps the frame time at 2 but does not clamp it at 0 for a timestamp that goes backwards.
- Resolver.Resolve does not state that every overlapping pair of one stage ends up fused. Contacts move tokens between visits, so after the eight passes a pair may overlap again, and the source promises no such thing. Which pairs are visited is stated only through `Resolver.FirstPairFuses` (the scan starts at (0, 1)), `Resolver.SolePairFuses` (every pair is reached) and the no-overlap clause. No contract pins the number of passes (eight, pentaro-game.jsx:216): with a single overlapping pair one pass already fuses it, and telling eight passes from fewer would need the contact geometry, which is a parameter here.
- Game.StepAppendsMerged does not restate the merged tokens' stage, position, velocity or creation time; it states only that none has stage 0. The stage (one above the fused pair's), position, velocity and creation time are stated per fusion by `Resolver.VisitPair`.
- Ranking.Sort: the contract states order and permutation but not stability, which the JavaScript sort guarantees. For an unsorted input the relative order of equal scores is left open.
- Ranking.Ranked does not state that the table is exactly the first ten of the stably sorted list for unsorted stored rankings. Stability is proved by `Ranking.RankedInsertsInPlace` when the stored rankings are already sorted, which every table this program writes is.
- Integrator.Move: the speed bound depends on the `rescale` oracle being sound. `Integrator.RescaleSound` states that assumption.
- Machine floating point is modelled as exact reals, and integers are unbounded. No counter in the source comes near 2^53.

=== FILE: entities.dfy ===
/** The entities of the engine: tokens, the effect descriptors a merge emits,
    and the values the model takes from outside (random numbers and the
    square-root geometry it does not compute). */
module Entities {
  import opened Stages

  /** A live game piece. Positions have their origin at the top left, with y
      growing downwards; `createdAt` is the spawn time in milliseconds. */
  datatype Token = Token(id: nat, x: real, y: real, vx: real, vy: real, stage: nat, createdAt: int)

  /** Position and velocity of one token, as a non-merging contact leaves them. */
  datatype Motion = Motion(x: real, y: real, vx: real, vy: real)

  /** Display-only descriptor of a merge (`stage` is the new stage) or a
      vanish (`stage` is the vanished one), placed at the pair's midpoint. */
  datatype Effect = Effect(x: real, y: real, stage: nat, isVanish: bool)

  /** A value of `Math.random()`. */
  type Random01 = r: real | 0.0 <= r < 1.0

  /** The floating-point geometry of a frame, supplied from outside:
      - `rescale(vx, vy)`: the velocity brought back to the maximum speed,
        used only when the speed exceeds it;
      - `overlap(a, b)`: the two tokens' centres are closer than the sum of
        their radii and do not coincide;
      - `contact(a, b)`: the new position and velocity of `a` and `b` after
        the positional correction and impulse of a non-merging contact. */
  datatype Physics = Physics(
    rescale: (real, real) -> (real, real),
    overlap: (Token, Token) -> bool,
    contact: (Token, Token) -> (Motion, Motion))

  /** `a` and `b` are the same token, possibly moved. */
  predicate SameIdentity(a: Token, b: Token) {
    a.id == b.id && a.stage == b.stage && a.createdAt == b.createdAt
  }

  function WithMotion(t: Token, m: Motion): (r: Token)
    ensures SameIdentity(r, t)
    ensures r.x == m.x && r.y == m.y && r.vx == m.vx && r.vy == m.vy
  {
    t.(x := m.x, y := m.y, vx := m.vx, vy := m.vy)
  }

  predicate AllValid(ts: seq<Token>) {
    forall k :: 0 <= k < |ts| ==> ValidStage(ts[k].stage)
  }

  /** Ids grow strictly along the sequence, so no two tokens share one. */
  predicate IdsIncreasing(ts: seq<Token>) {
    forall a, b :: 0 <= a < b < |ts| ==> ts[a].id < ts[b].id
  }

  predicate IdsBelow(ts: seq<Token>, bound: nat) {
    forall k :: 0 <= k < |ts| ==> ts[k].id < bound
  }

  function Abs(v: real): (r: real)
    ensures r >= 0.0 && (r == v || r == -v)
  {
    if v < 0.0 then -v else v
  }
}

=== FILE: game.dfy ===
/** The game session: the state the frame step and the player's commands
    share, the frame step itself (move, resolve, apply, flush, loss check),
    and the commands drop, pointer move, punch, restart and save score. */
module Game {
  import opened Stages
  import opened Entities
  import opened Integrator
  import opened Resolver
  import opened Store
  import opened Ranking

  /** Everything one game session owns. `canDrop` is the drop cool-down flag
      (cleared by a drop, set again by the cool-down timer); `lastTime` is the
      previous frame's timestamp, 0 before the first frame; `effects` are the
      merge effects waiting to be displayed; `highScore` and `rankings` are
      the stored best score and ranking table. */
  datatype Session = Session(
    tokens: seq<Token>,
    nextId: nat,
    score: int,
    highScore: int,
    charge: int,
    punchReady: bool,
    gameStarted: bool,
    gameOver: bool,
    canDrop: bool,
    nextStage: nat,
    dropX: real,
    lastTime: real,
    effects: seq<Effect>,
    rankings: seq<Entry>)

  /** What one frame step hands to its observers: the new session, the score
      earned in the frame and the merges and vanishes that happened. */
  datatype Report = Report(next: Session, scoreDelta: int, fusions: seq<Fusion>)

  /** The punch charge is never negative and the punch is armed exactly when
      a full punch's worth is charged. */
  predicate ChargeInv(s: Session) {
    s.charge >= 0 && (s.punchReady <==> s.charge >= PunchCost)
  }

  /** The invariant every reachable session keeps. */
  predicate WellFormed(s: Session) {
    && AllValid(s.tokens)
    && IdsIncreasing(s.tokens)
    && IdsBelow(s.tokens, s.nextId)
    && ChargeInv(s)
    && s.score >= 0
    && s.nextStage <= 3
    && DropMin <= s.dropX <= DropMax
  }

  /** The stage of the next token to drop, drawn uniformly from 0..3. */
  function NextStage(roll: Random01): (stage: nat)
    ensures stage <= 3
    ensures stage as real <= roll * 4.0 < stage as real + 1.0
  {
    (roll * 4.0).Floor
  }

  /** A fresh session as the page starts it, with the stored rankings and best score. */
  function Initial(rankings: seq<Entry>, highScore: int, roll: Random01): (s: Session)
    ensures WellFormed(s)
    ensures s.tokens == [] && s.score == 0 && s.charge == 0
    ensures !s.gameOver && !s.gameStarted && !s.punchReady && s.canDrop
    ensures s.highScore == highScore && s.rankings == rankings
    ensures s.nextId == 0 && s.lastTime == 0.0 && s.effects == []
    ensures s.dropX == ContainerWidth / 2.0 && s.nextStage == NextStage(roll)
  {
    Session([], 0, 0, highScore, 0, false, false, false, true, NextStage(roll),
            ContainerWidth / 2.0, 0.0, [], rankings)
  }

  /** The end-of-frame flush: a positive score delta is added to the score
      and to the punch charge, and arms the punch once the charge reaches the cost. */
  function Flush(s: Session, delta: int): (r: Session)
    ensures delta > 0 ==>
              && r.score == s.score + delta
              && r.charge == s.charge + delta
              && (r.punchReady <==> s.punchReady || r.charge >= PunchCost)
              && r == s.(score := r.score, charge := r.charge, punchReady := r.punchReady)
    ensures delta <= 0 ==> r == s
    ensures ChargeInv(s) && delta >= 0 ==> ChargeInv(r)
  {
    if delta > 0 then
      var charge := s.charge + delta;
      s.(score := s.score + delta, charge := charge, punchReady := s.punchReady || charge >= PunchCost)
    else s
  }

  /** A token that ends the game: above the line, settled and old enough. */
  predicate Stuck(t: Token, now: int)
    requires ValidStage(t.stage)
  {
    && t.y - Radius(t.stage) < GameOverLine
    && Abs(t.vy) < 1.0 && Abs(t.vx) < 1.0
    && now - t.createdAt > SettleAge
  }

  /** The loss detector's scan, stopping at the first stuck token. */
  function FindStuck(ts: seq<Token>, now: int): (found: bool)
    requires AllValid(ts)
    ensures found <==> exists k :: 0 <= k < |ts| && Stuck(ts[k], now)
  {
    if |ts| == 0 then false
    else if Stuck(ts[0], now) then true
    else
      var found := FindStuck(ts[1..], now);
      assert forall k :: 1 <= k < |ts| ==> ts[k] == ts[1..][k - 1];
      found
  }

  /** The frame's tokens after movement and the pair scan, before the store is updated. */
  function Scanned(s: Session, d: real, now: int, env: Physics): (sc: Scan)
    requires AllValid(s.tokens)
    ensures |sc.balls| == |s.tokens| && AllValid(sc.balls)
    ensures forall k :: 0 <= k < |s.tokens| ==> SameIdentity(sc.balls[k], s.tokens[k])
    ensures StagesValid(sc.fusions) && Disjoint(sc.fusions) && sc.removed == Members(sc.fusions)
    ensures forall a :: 0 <= a < |sc.fusions| ==>
              && sc.fusions[a].i < sc.fusions[a].j < |s.tokens|
              && s.tokens[sc.fusions[a].i].stage == sc.fusions[a].stage
              && s.tokens[sc.fusions[a].j].stage == sc.fusions[a].stage
    ensures forall k :: k in sc.removed ==> k < |s.tokens|
    ensures |sc.removed| == 2 * |sc.fusions| && |sc.added| == Merges(sc.fusions)
    ensures sc.nextId == s.nextId + |sc.added|
    ensures forall k :: 0 <= k < |sc.added| ==> sc.added[k].id == s.nextId + k && 0 < sc.added[k].stage <= LastStage
    ensures sc.gained == Rewards(sc.fusions) && sc.gained >= 0
    ensures var moved := IntegrateAll(s.tokens, d, env.rescale);
            ApartFrom(moved, env, 0, |moved|) ==>
              sc.balls == moved && sc.fusions == [] && sc.added == [] && sc.gained == 0 && sc.nextId == s.nextId
  {
    var moved := IntegrateAll(s.tokens, d, env.rescale);
    var sc := Resolve(moved, s.nextId, now, env);
    ScanCarries(moved, s.tokens, sc);
    sc
  }

  /** What the resolver states about the moved tokens holds of the store
      they were moved from: moving keeps every token's id and stage. */
  lemma ScanCarries(moved: seq<Token>, ts: seq<Token>, sc: Scan)
    requires |moved| == |ts| && |sc.balls| == |moved|
    requires forall k :: 0 <= k < |ts| ==> SameIdentity(moved[k], ts[k])
    requires forall k :: 0 <= k < |moved| ==> SameIdentity(sc.balls[k], moved[k])
    requires forall a :: 0 <= a < |sc.fusions| ==>
               && sc.fusions[a].i < sc.fusions[a].j < |moved|
               && moved[sc.fusions[a].i].stage == sc.fusions[a].stage
               && moved[sc.fusions[a].j].stage == sc.fusions[a].stage
    ensures forall k :: 0 <= k < |ts| ==> SameIdentity(sc.balls[k], ts[k])
    ensures forall a :: 0 <= a < |sc.fusions| ==>
              && sc.fusions[a].i < sc.fusions[a].j < |ts|
              && ts[sc.fusions[a].i].stage == sc.fusions[a].stage
              && ts[sc.fusions[a].j].stage == sc.fusions[a].stage
  {
    forall a | 0 <= a < |sc.fusions|
      ensures ts[sc.fusions[a].i].stage == sc.fusions[a].stage && ts[sc.fusions[a].j].stage == sc.fusions[a].stage
    {
      assert SameIdentity(moved[sc.fusions[a].i], ts[sc.fusions[a].i]);
      assert SameIdentity(moved[sc.fusions[a].j], ts[sc.fusions[a].j]);
    }
  }

  /** One frame. A finished game does nothing. Otherwise every token moves,
      the resolver schedules merges and vanishes, and `Settle` does the rest. */
  function Step(s: Session, timestamp: real, now: int, env: Physics): (r: Report)
    requires AllValid(s.tokens)
    ensures s.gameOver ==> r == Report(s, 0, [])
    ensures AllValid(r.next.tokens)
    ensures !s.gameOver ==>
              && r.next.lastTime == timestamp
              && r.next.gameStarted == s.gameStarted && r.next.canDrop == s.canDrop
              && r.next.nextStage == s.nextStage && r.next.dropX == s.dropX
              && r.next.rankings == s.rankings
  {
    if s.gameOver then Report(s, 0, [])
    else Settle(s, Scanned(s, FrameDelta(s.lastTime, timestamp), now, env), timestamp, now)
  }

  /** The end of a frame: the store is updated once from the scan's lists,
      the score and charge are flushed, the merge effects are queued, and
      the loss detector runs on the new store. The stored best score is
      raised to the session score the detector reads, which is the score
      before this frame's flush. */
  function Settle(s: Session, sc: Scan, timestamp: real, now: int): (r: Report)
    requires !s.gameOver
    requires AllValid(sc.balls) && AllValid(sc.added)
    ensures var idx := Survivors(|sc.balls|, sc.removed);
      && |r.next.tokens| == |idx| + |sc.added|
      && (forall a :: 0 <= a < |idx| ==> r.next.tokens[a] == sc.balls[idx[a]])
      && (forall a :: 0 <= a < |sc.added| ==> r.next.tokens[|idx| + a] == sc.added[a])
    ensures (forall k :: k in sc.removed ==> k < |sc.balls|) ==>
              |r.next.tokens| == |sc.balls| - |sc.removed| + |sc.added|
    ensures AllValid(r.next.tokens)
    ensures r.fusions == sc.fusions && r.scoreDelta == sc.gained && r.next.nextId == sc.nextId
    ensures r.next.effects == s.effects + sc.effects
    ensures sc.gained > 0 ==>
              && r.next.score == s.score + sc.gained
              && r.next.charge == s.charge + sc.gained
              && (r.next.punchReady <==> s.punchReady || r.next.charge >= PunchCost)
    ensures sc.gained <= 0 ==>
              r.next.score == s.score && r.next.charge == s.charge && r.next.punchReady == s.punchReady
    ensures r.next.gameOver <==> exists k :: 0 <= k < |r.next.tokens| && Stuck(r.next.tokens[k], now)
    ensures r.next.highScore == if r.next.gameOver && s.score > s.highScore then s.score else s.highScore
    ensures && r.next.lastTime == timestamp
            && r.next.gameStarted == s.gameStarted && r.next.canDrop == s.canDrop
            && r.next.nextStage == s.nextStage && r.next.dropX == s.dropX
            && r.next.rankings == s.rankings
  {
    var tokens := ApplyChanges(sc.balls, sc.removed, sc.added);
    assert AllValid(tokens);
    var applied := s.(tokens := tokens, nextId := sc.nextId, lastTime := timestamp,
                      effects := s.effects + sc.effects);
    var flushed := Flush(applied, sc.gained);
    assert flushed.tokens == tokens && !flushed.gameOver;
    var checked := CheckLoss(flushed, s.score, now);
    assert checked.tokens == tokens;
    Report(checked, sc.gained, sc.fusions)
  }

  /** The loss detector: the game ends when some token is stuck, and the
      stored best score is raised to `seen`, the score the detector reads. */
  function CheckLoss(s: Session, seen: int, now: int): (r: Session)
    requires AllValid(s.tokens) && !s.gameOver
    ensures r.gameOver <==> exists k :: 0 <= k < |s.tokens| && Stuck(s.tokens[k], now)
    ensures r.highScore == if r.gameOver && seen > s.highScore then seen else s.highScore
    ensures r.(gameOver := s.gameOver, highScore := s.highScore) == s
  {
    if FindStuck(s.tokens, now) then
      s.(gameOver := true, highScore := if seen > s.highScore then seen else s.highScore)
    else s
  }

  /** Each token index takes part in at most one merge or vanish per frame,
      always with a token of its own stage. */
  lemma StepFusions(s: Session, timestamp: real, now: int, env: Physics)
    requires AllValid(s.tokens) && !s.gameOver
    ensures var fs := Step(s, timestamp, now, env).fusions;
      && Disjoint(fs)
      && forall a :: 0 <= a < |fs| ==>
           && fs[a].i < fs[a].j < |s.tokens|
           && s.tokens[fs[a].i].stage == fs[a].stage
           && s.tokens[fs[a].j].stage == fs[a].stage
  {
  }

  /** Counting: each merge replaces two tokens by one and takes one fresh id,
      each vanish removes two tokens. */
  lemma StepCount(s: Session, timestamp: real, now: int, env: Physics)
    requires AllValid(s.tokens) && !s.gameOver
    ensures var r := Step(s, timestamp, now, env);
      && |r.next.tokens| == |s.tokens| - Merges(r.fusions) - 2 * Vanishes(r.fusions)
      && r.next.nextId == s.nextId + Merges(r.fusions)
  {
    var sc := Scanned(s, FrameDelta(s.lastTime, timestamp), now, env);
    MergesPlusVanishes(sc.fusions);
  }

  /** The store update keeps the surviving tokens, those in no merge or
      vanish, in their order. */
  lemma StepKeepsSurvivors(s: Session, timestamp: real, now: int, env: Physics)
    requires AllValid(s.tokens) && !s.gameOver
    ensures var r := Step(s, timestamp, now, env);
      var idx := Survivors(|s.tokens|, Members(r.fusions));
      && |idx| <= |r.next.tokens|
      && (forall a :: 0 <= a < |idx| ==> SameIdentity(r.next.tokens[a], s.tokens[idx[a]]))
  {
  }

  /** After the survivors come the merged tokens, in creation order, with
      consecutive fresh ids. */
  lemma StepAppendsMerged(s: Session, timestamp: real, now: int, env: Physics)
    requires AllValid(s.tokens) && !s.gameOver
    ensures var r := Step(s, timestamp, now, env);
      var idx := Survivors(|s.tokens|, Members(r.fusions));
      && |r.next.tokens| == |idx| + Merges(r.fusions)
      && (forall k :: |idx| <= k < |r.next.tokens| ==>
            r.next.tokens[k].id == s.nextId + k - |idx| && r.next.tokens[k].stage > 0)
  {
  }

  /** The frame's score is the sum of its fusions' rewards; it is added to
      both the score and the charge, and arms the punch at the cost. */
  lemma StepScore(s: Session, timestamp: real, now: int, env: Physics)
    requires AllValid(s.tokens) && !s.gameOver
    ensures var r := Step(s, timestamp, now, env);
      && StagesValid(r.fusions)
      && r.scoreDelta == Rewards(r.fusions) && r.scoreDelta >= 0
      && r.next.score == s.score + r.scoreDelta
      && r.next.charge == s.charge + r.scoreDelta
      && (r.next.punchReady <==> s.punchReady || (r.scoreDelta > 0 && r.next.charge >= PunchCost))
  {
  }

  /** The game ends in a frame exactly when some token of the new store is
      stuck; the stored best score becomes the larger of itself and the
      score the detector reads. */
  lemma StepLoss(s: Session, timestamp: real, now: int, env: Physics)
    requires AllValid(s.tokens) && !s.gameOver
    ensures var r := Step(s, timestamp, now, env);
      && (r.next.gameOver <==> exists k :: 0 <= k < |r.next.tokens| && Stuck(r.next.tokens[k], now))
      && r.next.highScore == (if r.next.gameOver && s.score > s.highScore then s.score else s.highScore)
  {
  }

  /** A frame keeps the session invariant: surviving tokens keep their
      increasing ids and the new tokens get fresh, larger ones. */
  lemma StepKeepsWellFormed(s: Session, timestamp: real, now: int, env: Physics)
    requires WellFormed(s)
    ensures WellFormed(Step(s, timestamp, now, env).next)
  {
    if !s.gameOver {
      StepKeepsSurvivors(s, timestamp, now, env);
      StepAppendsMerged(s, timestamp, now, env);
      StepCount(s, timestamp, now, env);
      StepScore(s, timestamp, now, env);
      var r := Step(s, timestamp, now, env);
      var idx := Survivors(|s.tokens|, Members(r.fusions));
      FreshIdsAfterSurvivors(s.tokens, idx, r.next.tokens, s.nextId, Merges(r.fusions));
    }
  }

  /** Every token after a frame is either a token from before it or a new
      one with an id from the counter's unused range. */
  lemma StepFreshOrKept(s: Session, timestamp: real, now: int, env: Physics)
    requires AllValid(s.tokens)
    ensures FreshOrKept(s.tokens, Step(s, timestamp, now, env).next.tokens, s.nextId)
  {
    if !s.gameOver {
      StepKeepsSurvivors(s, timestamp, now, env);
      StepAppendsMerged(s, timestamp, now, env);
      var r := Step(s, timestamp, now, env);
      var idx := Survivors(|s.tokens|, Members(r.fusions));
      forall k | 0 <= k < |idx|
        ensures exists j :: 0 <= j < |s.tokens| && SameIdentity(r.next.tokens[k], s.tokens[j])
      {
        assert SameIdentity(r.next.tokens[k], s.tokens[idx[k]]);
      }
    } else {
      KeptThenFresh(s.tokens, s.tokens, s.nextId);
    }
  }

  /** Survivors listed in increasing index order, followed by tokens with
      consecutive ids from `base`, have increasing ids below `base + m`. */
  lemma FreshIdsAfterSurvivors(prev: seq<Token>, idx: seq<nat>, next: seq<Token>, base: nat, m: nat)
    requires IdsIncreasing(prev) && IdsBelow(prev, base)
    requires forall a :: 0 <= a < |idx| ==> idx[a] < |prev|
    requires forall a, b :: 0 <= a < b < |idx| ==> idx[a] < idx[b]
    requires |next| == |idx| + m
    requires forall a :: 0 <= a < |idx| ==> SameIdentity(next[a], prev[idx[a]])
    requires forall k :: |idx| <= k < |next| ==> next[k].id == base + k - |idx|
    ensures IdsIncreasing(next) && IdsBelow(next, base + m)
  {
    forall a, b | 0 <= a < b < |next|
      ensures next[a].id < next[b].id
    {
      if b < |idx| {
        assert prev[idx[a]].id < prev[idx[b]].id;
      } else if a < |idx| {
        assert prev[idx[a]].id < base;
      }
    }
    forall k | 0 <= k < |next|
      ensures next[k].id < base + m
    {
      if k < |idx| {
        assert prev[idx[k]].id < base;
      }
    }
  }

  /** A finished game stays finished, and nothing in it moves or scores. */
  lemma OverIsFrozen(s: Session, timestamp: real, now: int, env: Physics)
    requires AllValid(s.tokens) && s.gameOver
    ensures var r := Step(s, timestamp, now, env);
      r.next.gameOver && r.next.tokens == s.tokens && r.next.score == s.score && r.next.charge == s.charge
  {
  }

  /** A drop: refused while the game is over or the cool-down runs; otherwise
      a still token of the queued stage appears at the drop position, hanging
      from the drop line, the cool-down starts and a new stage is queued. */
  function Drop(s: Session, now: int, roll: Random01): (r: Session)
    requires ValidStage(s.nextStage)
    ensures s.gameOver || !s.canDrop ==> r == s
    ensures !s.gameOver && s.canDrop ==>
              && |r.tokens| == |s.tokens| + 1
              && r.tokens[..|s.tokens|] == s.tokens
              && r.tokens[|s.tokens|].id == s.nextId
              && r.tokens[|s.tokens|].stage == s.nextStage
              && r.tokens[|s.tokens|].x == s.dropX
              && r.tokens[|s.tokens|].y - Radius(s.nextStage) == DropY
              && r.tokens[|s.tokens|].vx == 0.0 && r.tokens[|s.tokens|].vy == 0.0
              && r.tokens[|s.tokens|].createdAt == now
              && r.nextId == s.nextId + 1
              && !r.canDrop && r.gameStarted && !r.gameOver
              && r.nextStage <= 3
              && r.score == s.score && r.charge == s.charge && r.punchReady == s.punchReady
    ensures !s.gameOver && s.canDrop ==>
              && r.nextStage == NextStage(roll)
              && r.(tokens := s.tokens, nextId := s.nextId, gameStarted := s.gameStarted,
                    canDrop := s.canDrop, nextStage := s.nextStage) == s
  {
    if s.gameOver || !s.canDrop then s
    else
      var t := Token(s.nextId, s.dropX, DropY + Radius(s.nextStage), 0.0, 0.0, s.nextStage, now);
      s.(tokens := s.tokens + [t], nextId := s.nextId + 1, gameStarted := true, canDrop := false,
         nextStage := NextStage(roll))
  }

  /** A drop keeps the session invariant: the new token takes the next free id. */
  lemma DropKeepsWellFormed(s: Session, now: int, roll: Random01)
    requires WellFormed(s)
    ensures WellFormed(Drop(s, now, roll))
    ensures FreshOrKept(s.tokens, Drop(s, now, roll).tokens, s.nextId)
  {
    var r := Drop(s, now, roll);
    if !s.gameOver && s.canDrop {
      var n := |s.tokens|;
      assert r.tokens == s.tokens + [r.tokens[n]];
      AppendFresh(s.tokens, r.tokens[n], s.nextId);
    } else {
      KeptThenFresh(s.tokens, s.tokens, s.nextId);
    }
  }

  /** Appending a token with the next free id keeps ids increasing and fresh. */
  lemma AppendFresh(prev: seq<Token>, t: Token, base: nat)
    requires IdsIncreasing(prev) && IdsBelow(prev, base) && t.id == base
    ensures IdsIncreasing(prev + [t]) && IdsBelow(prev + [t], base + 1)
    ensures FreshOrKept(prev, prev + [t], base)
  {
    var next := prev + [t];
    assert forall k :: 0 <= k < |prev| ==> next[k] == prev[k];
    forall a, b | 0 <= a < b < |next|
      ensures next[a].id < next[b].id
    {
      if b < |prev| {
        assert prev[a].id < prev[b].id;
      } else {
        assert prev[a].id < base;
      }
    }
    KeptThenFresh(prev, next, base);
  }

  /** The cool-down timer firing 400 ms after a drop. */
  function EndCooldown(s: Session): (r: Session)
    ensures r.canDrop
    ensures r.(canDrop := s.canDrop) == s
  {
    s.(canDrop := true)
  }

  /** Pointer movement to `x` (relative to the container) sets the drop
      position, kept 50 units away from either side; ignored once the game is over. */
  function HandleMove(s: Session, x: real): (r: Session)
    ensures s.gameOver ==> r == s
    ensures !s.gameOver ==>
              && DropMin <= r.dropX <= DropMax
              && (DropMin <= x <= DropMax ==> r.dropX == x)
              && (x < DropMin ==> r.dropX == DropMin)
              && (x > DropMax ==> r.dropX == DropMax)
              && r.(dropX := s.dropX) == s
  {
    if s.gameOver then s
    else
      var inner := if DropMax < x then DropMax else x;
      s.(dropX := if DropMin > inner then DropMin else inner)
  }

  predicate CanPunch(s: Session) {
    s.punchReady && !s.gameOver && s.gameStarted
  }

  /** The kick one token gets: up to 7.5 sideways either way and 3 to 11 upwards. */
  function Kick(t: Token, roll: (Random01, Random01)): (r: Token)
    ensures SameIdentity(r, t) && r.x == t.x && r.y == t.y
    ensures -7.5 <= r.vx - t.vx < 7.5
    ensures 3.0 <= t.vy - r.vy < 11.0
  {
    t.(vx := t.vx + (roll.0 - 0.5) * 15.0, vy := t.vy - (roll.1 * 8.0 + 3.0))
  }

  /** The punch: allowed only when armed, started and not over; it spends one
      punch's worth of charge, stays armed if enough is left, and kicks every token. */
  function Punch(s: Session, rolls: nat -> (Random01, Random01)): (r: Session)
    ensures !CanPunch(s) ==> r == s
    ensures CanPunch(s) ==>
              && r.charge == s.charge - PunchCost
              && (r.punchReady <==> r.charge >= PunchCost)
              && |r.tokens| == |s.tokens|
              && (forall k :: 0 <= k < |s.tokens| ==>
                    && SameIdentity(r.tokens[k], s.tokens[k])
                    && r.tokens[k].x == s.tokens[k].x && r.tokens[k].y == s.tokens[k].y
                    && -7.5 <= r.tokens[k].vx - s.tokens[k].vx < 7.5
                    && 3.0 <= s.tokens[k].vy - r.tokens[k].vy < 11.0)
              && r.score == s.score && r.nextId == s.nextId && !r.gameOver
              && r.(charge := s.charge, punchReady := s.punchReady, tokens := s.tokens) == s
    ensures ChargeInv(s) ==> ChargeInv(r)
  {
    if !CanPunch(s) then s
    else
      var charge := s.charge - PunchCost;
      var kicked := seq(|s.tokens|, k requires 0 <= k < |s.tokens| => Kick(s.tokens[k], rolls(k)));
      assert forall k :: 0 <= k < |s.tokens| ==> kicked[k] == Kick(s.tokens[k], rolls(k));
      s.(charge := charge, punchReady := charge >= PunchCost, tokens := kicked)
  }

  /** Restart: an empty, unstarted game with no score or charge; the id
      counter, the frame clock and the stored records carry over. */
  function Restart(s: Session, roll: Random01): (r: Session)
    ensures r.tokens == [] && r.score == 0 && r.charge == 0
    ensures !r.gameOver && !r.gameStarted && !r.punchReady && r.canDrop
    ensures r.effects == [] && r.dropX == ContainerWidth / 2.0
    ensures r.nextStage == NextStage(roll) && r.nextStage <= 3
    ensures r.nextId == s.nextId && r.lastTime == s.lastTime
    ensures r.highScore == s.highScore && r.rankings == s.rankings
  {
    s.(tokens := [], score := 0, gameOver := false, gameStarted := false,
       nextStage := NextStage(roll), dropX := ContainerWidth / 2.0, canDrop := true,
       punchReady := false, charge := 0, effects := [])
  }

  /** Saving the score under the typed name. */
  function SaveScore(s: Session, input: string, date: int): (r: Session)
    ensures |r.rankings| == Min(|s.rankings| + 1, MaxEntries)
    ensures SortedDesc(r.rankings)
    ensures multiset(r.rankings) <= multiset(s.rankings + [Entry(DisplayName(input), s.score, date)])
    ensures SortedDesc(s.rankings) ==>
              var e := Entry(DisplayName(input), s.score, date);
              var p := Place(e, s.rankings);
              r.rankings == (s.rankings[..p] + [e] + s.rankings[p..])[..Min(|s.rankings| + 1, MaxEntries)]
    ensures r.(rankings := s.rankings) == s
  {
    var e := Entry(DisplayName(input), s.score, date);
    RankedInsertsInPlace(s.rankings, e);
    s.(rankings := Ranked(s.rankings, e))
  }

  /** Everything that can happen to a session between or at frames. */
  datatype Command =
    | Frame(timestamp: real, now: int, env: Physics)
    | Click(now: int, roll: Random01)
    | Pointer(x: real)
    | PunchButton(rolls: nat -> (Random01, Random01))
    | RestartButton(roll: Random01)
    | CooldownOver
    | Save(name: string, date: int)

  /** One command. It keeps the session invariant and never reuses an id:
      every token afterwards is either one of the tokens before it or carries
      an id the counter had not yet handed out. */
  function Exec(s: Session, c: Command): (r: Session)
    requires WellFormed(s)
    ensures WellFormed(r)
    ensures r.nextId >= s.nextId
    ensures FreshOrKept(s.tokens, r.tokens, s.nextId)
  {
    match c
    case Frame(timestamp, now, env) =>
      StepKeepsWellFormed(s, timestamp, now, env);
      StepFreshOrKept(s, timestamp, now, env);
      Step(s, timestamp, now, env).next
    case Click(now, roll) =>
      DropKeepsWellFormed(s, now, roll);
      Drop(s, now, roll)
    case Pointer(x) =>
      KeptThenFresh(s.tokens, s.tokens, s.nextId);
      HandleMove(s, x)
    case PunchButton(rolls) =>
      var r := Punch(s, rolls);
      KeptThenFresh(s.tokens, r.tokens, s.nextId);
      r
    case RestartButton(roll) => Restart(s, roll)
    case CooldownOver =>
      KeptThenFresh(s.tokens, s.tokens, s.nextId);
      EndCooldown(s)
    case Save(name, date) =>
      KeptThenFresh(s.tokens, s.tokens, s.nextId);
      SaveScore(s, name, date)
  }

  /** Every token of `next` is a token of `prev` or carries an id of at least `base`. */
  predicate FreshOrKept(prev: seq<Token>, next: seq<Token>, base: int) {
    forall k :: 0 <= k < |next| ==>
      next[k].id >= base || exists j :: 0 <= j < |prev| && SameIdentity(next[k], prev[j])
  }

  /** Tokens kept in place, followed by tokens with ids from `base` on. */
  lemma KeptThenFresh(prev: seq<Token>, next: seq<Token>, base: int)
    requires |prev| <= |next|
    requires forall k :: 0 <= k < |prev| ==> SameIdentity(next[k], prev[k])
    requires forall k :: |prev| <= k < |next| ==> next[k].id >= base
    ensures FreshOrKept(prev, next, base)
  {
    forall k | 0 <= k < |prev|
      ensures exists j :: 0 <= j < |prev| && SameIdentity(next[k], prev[j])
    {
      assert SameIdentity(next[k], prev[k]);
    }
  }

  /** A whole history of frames and commands. The session invariant holds
      throughout; in particular the charge is never negative and the punch
      is armed only when a full punch's worth is charged. */
  function Run(s: Session, cs: seq<Command>): (r: Session)
    requires WellFormed(s)
    ensures WellFormed(r)
    ensures r.charge >= 0 && (r.punchReady ==> r.charge >= PunchCost)
    ensures r.nextId >= s.nextId
    decreases |cs|
  {
    if |cs| == 0 then s else Run(Exec(s, cs[0]), cs[1..])
  }

  /** Once the game is over, no frame or command short of a restart changes
      its tokens, score or charge, or brings it back. */
  lemma {:induction false} OverUntilRestart(s: Session, cs: seq<Command>)
    requires WellFormed(s) && s.gameOver
    requires forall k :: 0 <= k < |cs| ==> !cs[k].RestartButton?
    ensures var r := Run(s, cs);
      r.gameOver && r.tokens == s.tokens && r.score == s.score && r.charge == s.charge
    decreases |cs|
  {
    if |cs| > 0 {
      var next := Exec(s, cs[0]);
      ExecWhileOver(s, cs[0]);
      assert forall k :: 0 <= k < |cs[1..]| ==> !cs[1..][k].RestartButton? by {
        assert forall k :: 0 <= k < |cs[1..]| ==> cs[1..][k] == cs[k + 1];
      }
      OverUntilRestart(next, cs[1..]);
    }
  }

  lemma ExecWhileOver(s: Session, c: Command)
    requires WellFormed(s) && s.gameOver && !c.RestartButton?
    ensures var r := Exec(s, c);
      r.gameOver && r.tokens == s.tokens && r.score == s.score && r.charge == s.charge
  {
    match c
    case Frame(timestamp, now, env) =>
    case Click(now, roll) =>
    case Pointer(x) =>
    case PunchButton(rolls) =>
    case RestartButton(roll) =>
    case CooldownOver =>
    case Save(name, date) =>
  }
}

=== FILE: integrator.dfy ===
/** Per-token motion of one frame: gravity, the speed limit, movement, and the
    clamp-and-reflect handling of the two walls and the floor. */
module Integrator {
  import opened Stages
  import opened Entities

  /** Frame time in units of a 60 Hz frame (16.67 ms), capped at 2. A session
      that has not seen a frame yet (`last == 0`) uses 1. */
  function FrameDelta(last: real, now: real): (d: real)
    ensures d <= 2.0
    ensures last == 0.0 ==> d == 1.0
    ensures last != 0.0 ==> d * 16.67 <= now - last
    ensures last != 0.0 && d < 2.0 ==> d * 16.67 == now - last
  {
    if last == 0.0 then 1.0
    else
      var q := (now - last) / 16.67;
      if q < 2.0 then q else 2.0
  }

  /** The rescaling oracle brings any over-fast velocity to at most the maximum speed. */
  ghost predicate RescaleSound(rescale: (real, real) -> (real, real)) {
    forall vx: real, vy: real :: vx * vx + vy * vy > MaxSpeed * MaxSpeed ==>
      rescale(vx, vy).0 * rescale(vx, vy).0 + rescale(vx, vy).1 * rescale(vx, vy).1 <= MaxSpeed * MaxSpeed
  }

  /** The speed limit: a velocity above `MaxSpeed` is rescaled, any other is kept. */
  function ClampSpeed(vx: real, vy: real, rescale: (real, real) -> (real, real)): (v: (real, real))
    ensures vx * vx + vy * vy <= MaxSpeed * MaxSpeed ==> v == (vx, vy)
    ensures RescaleSound(rescale) ==> v.0 * v.0 + v.1 * v.1 <= MaxSpeed * MaxSpeed
  {
    if vx * vx + vy * vy > MaxSpeed * MaxSpeed then rescale(vx, vy) else (vx, vy)
  }

  /** Gravity, the speed limit, then one frame of movement. */
  function Move(t: Token, d: real, rescale: (real, real) -> (real, real)): (r: Token)
    ensures SameIdentity(r, t)
    ensures r.x - t.x == r.vx * d && r.y - t.y == r.vy * d
    ensures t.vx * t.vx + (t.vy + Gravity * d) * (t.vy + Gravity * d) <= MaxSpeed * MaxSpeed ==>
              r.vx == t.vx && r.vy == t.vy + Gravity * d
    ensures RescaleSound(rescale) ==> r.vx * r.vx + r.vy * r.vy <= MaxSpeed * MaxSpeed
  {
    var v := ClampSpeed(t.vx, t.vy + Gravity * d, rescale);
    t.(vx := v.0, vy := v.1, x := t.x + v.0 * d, y := t.y + v.1 * d)
  }

  /** No tunnelling: with a sound rescaling oracle a token moves at most
      `MaxSpeed * d` in one frame, before the boundary handling. */
  lemma NoTunneling(t: Token, d: real, rescale: (real, real) -> (real, real))
    requires RescaleSound(rescale)
    ensures var r := Move(t, d, rescale);
      (r.x - t.x) * (r.x - t.x) + (r.y - t.y) * (r.y - t.y) <= MaxSpeed * MaxSpeed * d * d
  {
    var r := Move(t, d, rescale);
    ScaledSquare(r.vx, r.vy, d, MaxSpeed * MaxSpeed);
  }

  /** A velocity of squared length at most `bound`, applied for `d` frames,
      moves at most `bound * d * d` in squared distance. */
  lemma ScaledSquare(vx: real, vy: real, d: real, bound: real)
    requires vx * vx + vy * vy <= bound
    ensures (vx * d) * (vx * d) + (vy * d) * (vy * d) <= bound * d * d
  {
    assert (vx * d) * (vx * d) + (vy * d) * (vy * d) == (vx * vx + vy * vy) * (d * d);
    assert d * d >= 0.0;
  }

  predicate HitsLeft(t: Token)
    requires ValidStage(t.stage)
  {
    t.x - Radius(t.stage) < WallThickness
  }

  predicate HitsRight(t: Token)
    requires ValidStage(t.stage)
  {
    t.x + Radius(t.stage) > ContainerWidth - WallThickness
  }

  predicate HitsFloor(t: Token)
    requires ValidStage(t.stage)
  {
    t.y + Radius(t.stage) > ContainerHeight - WallThickness
  }

  /** Left wall: push out to the wall face and send the token rightwards at 30% speed. */
  function LeftWall(t: Token): (r: Token)
    requires ValidStage(t.stage)
  {
    if HitsLeft(t) then t.(x := WallThickness + Radius(t.stage), vx := Abs(t.vx) * Bounce) else t
  }

  /** Right wall: push out to the wall face and send the token leftwards at 30% speed. */
  function RightWall(t: Token): (r: Token)
    requires ValidStage(t.stage)
  {
    if HitsRight(t) then t.(x := ContainerWidth - WallThickness - Radius(t.stage), vx := -Abs(t.vx) * Bounce) else t
  }

  /** A speed below `eps` in magnitude is snapped to zero. */
  function Snap(v: real, eps: real): real {
    if Abs(v) < eps then 0.0 else v
  }

  /** Floor: rest on the floor, bounce up at 30%, lose a quarter of the
      horizontal speed, and snap near-zero velocities to zero. */
  function Floor(t: Token): (r: Token)
    requires ValidStage(t.stage)
  {
    if HitsFloor(t) then
      t.(y := ContainerHeight - WallThickness - Radius(t.stage),
         vy := Snap(-Abs(t.vy) * Bounce, 0.5),
         vx := Snap(t.vx * Friction, 0.1))
    else t
  }

  /** The three boundary checks, in the order the frame applies them. */
  function Boundary(t: Token): (r: Token)
    requires ValidStage(t.stage)
    ensures SameIdentity(r, t)
    ensures WallThickness + Radius(t.stage) <= r.x <= ContainerWidth - WallThickness - Radius(t.stage)
    ensures r.y + Radius(t.stage) <= ContainerHeight - WallThickness
    ensures HitsLeft(t) ==> r.x == WallThickness + Radius(t.stage) && r.vx >= 0.0
    ensures HitsRight(t) ==> r.x == ContainerWidth - WallThickness - Radius(t.stage) && r.vx <= 0.0
    ensures !HitsLeft(t) && !HitsRight(t) ==> r.x == t.x
    ensures HitsFloor(t) ==>
              && r.y + Radius(t.stage) == ContainerHeight - WallThickness
              && r.vy <= 0.0
              && (r.vy == 0.0 || r.vy <= -0.5)
              && (r.vx == 0.0 || Abs(r.vx) >= 0.1)
    ensures !HitsFloor(t) ==> r.y == t.y && r.vy == t.vy
    ensures var w := if HitsLeft(t) then Abs(t.vx) * Bounce
                     else if HitsRight(t) then -Abs(t.vx) * Bounce
                     else t.vx;
            && (!HitsFloor(t) ==> r.vx == w)
            && (HitsFloor(t) ==> r.vy == Snap(-Abs(t.vy) * Bounce, 0.5) && r.vx == Snap(w * Friction, 0.1))
    ensures !HitsLeft(t) && !HitsRight(t) && !HitsFloor(t) ==> r == t
  {
    Floor(RightWall(LeftWall(t)))
  }

  /** A token that already lies within the walls and above the floor is left alone:
      the boundary handling is idempotent. */
  lemma BoundaryIdempotent(t: Token)
    requires ValidStage(t.stage)
    ensures Boundary(Boundary(t)) == Boundary(t)
  {
  }

  /** The whole per-token part of a frame. */
  function Integrate(t: Token, d: real, rescale: (real, real) -> (real, real)): (r: Token)
    requires ValidStage(t.stage)
    ensures SameIdentity(r, t)
    ensures WallThickness + Radius(t.stage) <= r.x <= ContainerWidth - WallThickness - Radius(t.stage)
    ensures r.y + Radius(t.stage) <= ContainerHeight - WallThickness
  {
    Boundary(Move(t, d, rescale))
  }

  /** A token resting alone on the floor with no velocity stays exactly where it is. */
  lemma RestingTokenStays(t: Token, d: real, rescale: (real, real) -> (real, real))
    requires ValidStage(t.stage)
    requires t.vx == 0.0 && t.vy == 0.0
    requires t.y + Radius(t.stage) == ContainerHeight - WallThickness
    requires WallThickness + Radius(t.stage) <= t.x <= ContainerWidth - WallThickness - Radius(t.stage)
    requires 0.0 <= d <= 2.0
    ensures Integrate(t, d, rescale) == t
  {
    var g := Gravity * d;
    assert 0.0 <= g <= 0.7;
    assert g * g <= 0.7 * 0.7 by {
      assert g * g <= 0.7 * g <= 0.7 * 0.7;
    }
    var m := Move(t, d, rescale);
    assert m.vx == 0.0 && m.vy == g;
    assert m.y == t.y + g * d;
    if d > 0.0 {
      assert HitsFloor(m);
    } else {
      assert !HitsFloor(m);
    }
  }

  /** Every token of the store moves, each on its own. */
  function IntegrateAll(ts: seq<Token>, d: real, rescale: (real, real) -> (real, real)): (r: seq<Token>)
    requires AllValid(ts)
    ensures |r| == |ts|
    ensures forall k :: 0 <= k < |ts| ==> r[k] == Integrate(ts[k], d, rescale)
    ensures forall k :: 0 <= k < |ts| ==> SameIdentity(r[k], ts[k])
    ensures AllValid(r)
  {
    if |ts| == 0 then []
    else IntegrateAll(ts[..|ts| - 1], d, rescale) + [Integrate(ts[|ts| - 1], d, rescale)]
  }
}

=== FILE: ranking.dfy ===
/** The local ranking table written when a finished game's score is saved:
    the player's name is trimmed (an empty name becomes "ななし"), the new
    entry joins the prior ones, the whole list is sorted by score from high to
    low without reordering equal scores, and only the first ten are kept. */
module Ranking {

  datatype Entry = Entry(name: string, score: int, date: int)

  const MaxEntries: nat := 10
  const Anonymous: string := "ななし"

  /** The characters `String.prototype.trim` strips: the ECMAScript white
      space (including every space separator) and line terminators. */
  predicate IsWhiteSpace(c: char) {
    || c == '\t' || c == '\n' || c == '\U{000B}' || c == '\U{000C}' || c == '\r' || c == ' '
    || c == '\U{00A0}' || c == '\U{1680}' || ('\U{2000}' <= c <= '\U{200A}')
    || c == '\U{2028}' || c == '\U{2029}' || c == '\U{202F}' || c == '\U{205F}'
    || c == '\U{3000}' || c == '\U{FEFF}'
  }

  /** Index of the first character of `s` at or after `a` that is not white space. */
  function SkipLeading(s: string, a: nat): (r: nat)
    requires a <= |s|
    decreases |s| - a
    ensures a <= r <= |s|
    ensures forall k :: a <= k < r ==> IsWhiteSpace(s[k])
    ensures r < |s| ==> !IsWhiteSpace(s[r])
  {
    if a < |s| && IsWhiteSpace(s[a]) then SkipLeading(s, a + 1) else a
  }

  /** End of `s[a..b]` once its trailing white space is dropped. */
  function SkipTrailing(s: string, a: nat, b: nat): (r: nat)
    requires a <= b <= |s|
    decreases b
    ensures a <= r <= b
    ensures forall k :: r <= k < b ==> IsWhiteSpace(s[k])
    ensures r > a ==> !IsWhiteSpace(s[r - 1])
  {
    if b > a && IsWhiteSpace(s[b - 1]) then SkipTrailing(s, a, b - 1) else b
  }

  /** `String.prototype.trim`: the slice of `s` from its first to its last
      character that is not white space. */
  function Trim(s: string): (r: string)
    ensures r == [] <==> forall k :: 0 <= k < |s| ==> IsWhiteSpace(s[k])
    ensures r != [] ==> !IsWhiteSpace(r[0]) && !IsWhiteSpace(r[|r| - 1])
    ensures var a := SkipLeading(s, 0);
      && a + |r| <= |s| && r == s[a..a + |r|]
      && (forall k :: 0 <= k < a ==> IsWhiteSpace(s[k]))
      && (forall k :: a + |r| <= k < |s| ==> IsWhiteSpace(s[k]))
  {
    var a := SkipLeading(s, 0);
    var b := SkipTrailing(s, a, |s|);
    s[a..b]
  }

  /** The name stored with a score: the trimmed input, or "ななし" when nothing is left. */
  function DisplayName(input: string): (name: string)
    ensures name != []
    ensures (forall k :: 0 <= k < |input| ==> IsWhiteSpace(input[k])) ==> name == Anonymous
    ensures (exists k :: 0 <= k < |input| && !IsWhiteSpace(input[k])) ==> name == Trim(input)
  {
    var t := Trim(input);
    if t == [] then Anonymous else t
  }

  predicate SortedDesc(s: seq<Entry>) {
    forall a, b :: 0 <= a < b < |s| ==> s[a].score >= s[b].score
  }

  /** Number of leading entries whose score is at least `e`'s: where `Insert` puts `e`. */
  function Place(e: Entry, s: seq<Entry>): (p: nat)
    ensures p <= |s|
    ensures forall k :: 0 <= k < p ==> s[k].score >= e.score
    ensures p < |s| ==> s[p].score < e.score
  {
    if |s| == 0 || s[0].score < e.score then 0 else 1 + Place(e, s[1..])
  }

  /** One step of a stable insertion sort: `e` goes after every leading entry
      scoring at least as much. */
  function Insert(e: Entry, s: seq<Entry>): (r: seq<Entry>)
    ensures |r| == |s| + 1
    ensures multiset(r) == multiset(s) + multiset{e}
    ensures SortedDesc(s) ==> SortedDesc(r)
  {
    var p := Place(e, s);
    assert s == s[..p] + s[p..];
    InsertKeepsOrder(e, s);
    s[..p] + [e] + s[p..]
  }

  lemma InsertKeepsOrder(e: Entry, s: seq<Entry>)
    ensures SortedDesc(s) ==> SortedDesc(s[..Place(e, s)] + [e] + s[Place(e, s)..])
  {
    var p := Place(e, s);
    var r := s[..p] + [e] + s[p..];
    if SortedDesc(s) {
      forall k | p <= k < |s|
        ensures s[k].score < e.score
      {
        assert s[p].score >= s[k].score;
      }
      forall a, b | 0 <= a < b < |r|
        ensures r[a].score >= r[b].score
      {
        if b < p {
          assert r[a] == s[a] && r[b] == s[b];
        } else if b == p {
          assert r[b] == e && r[a] == s[a];
        } else if a == p {
          assert r[a] == e && r[b] == s[b - 1];
        } else if a < p {
          assert r[a] == s[a] && r[b] == s[b - 1];
        } else {
          assert r[a] == s[a - 1] && r[b] == s[b - 1];
        }
      }
    }
  }

  /** Stable insertion sort by non-increasing score, the order
      `Array.prototype.sort` gives with a comparator of `b.score - a.score`. */
  function Sort(s: seq<Entry>): (r: seq<Entry>)
    ensures SortedDesc(r)
    ensures multiset(r) == multiset(s)
    ensures |r| == |s|
  {
    if |s| == 0 then []
    else
      var init := s[..|s| - 1];
      assert s == init + [s[|s| - 1]];
      Insert(s[|s| - 1], Sort(init))
  }

  /** Sorting an already sorted list changes nothing. */
  lemma {:induction false} SortSorted(s: seq<Entry>)
    requires SortedDesc(s)
    ensures Sort(s) == s
  {
    if |s| > 0 {
      var init := s[..|s| - 1];
      var e := s[|s| - 1];
      assert SortedDesc(init);
      SortSorted(init);
      InsertLast(e, init);
      assert s == init + [e];
    }
  }

  /** An entry scoring no more than all of `s` is appended. */
  lemma InsertLast(e: Entry, s: seq<Entry>)
    requires forall k :: 0 <= k < |s| ==> s[k].score >= e.score
    ensures Insert(e, s) == s + [e]
  {
    PlaceAll(e, s);
    assert s[..|s|] == s && s[|s|..] == [];
  }

  /** An entry scoring no more than all of `s` is placed at its end. */
  lemma {:induction false} PlaceAll(e: Entry, s: seq<Entry>)
    requires forall k :: 0 <= k < |s| ==> s[k].score >= e.score
    ensures Place(e, s) == |s|
  {
    if |s| > 0 {
      PlaceAll(e, s[1..]);
    }
  }

  function Min(a: nat, b: nat): nat {
    if a < b then a else b
  }

  /** The rankings after saving `e`: sorted, cut to the first ten. */
  function Ranked(prior: seq<Entry>, e: Entry): (r: seq<Entry>)
    ensures |r| == Min(|prior| + 1, MaxEntries)
    ensures SortedDesc(r)
    ensures multiset(r) <= multiset(prior + [e])
  {
    var all := Sort(prior + [e]);
    var r := all[..Min(|prior| + 1, MaxEntries)];
    assert all == r + all[|r|..];
    r
  }

  /** Cutting to ten drops only entries scoring no more than the tenth kept one. */
  lemma RankedKeepsBest(prior: seq<Entry>, e: Entry)
    requires |prior| + 1 > MaxEntries
    ensures var r := Ranked(prior, e);
      forall x :: x in prior + [e] && x !in r ==> x.score <= r[MaxEntries - 1].score
  {
    var all := Sort(prior + [e]);
    var r := Ranked(prior, e);
    assert r == all[..MaxEntries];
    assert forall j :: 0 <= j < MaxEntries ==> all[j] == r[j];
    forall x | x in prior + [e] && x !in r
      ensures x.score <= r[MaxEntries - 1].score
    {
      assert x in multiset(prior + [e]);
      assert x in multiset(all);
      var k :| 0 <= k < |all| && all[k] == x;
      assert all[MaxEntries - 1].score >= all[k].score;
    }
  }

  /** When the stored rankings are already in order, the new entry is placed
      right after every entry with an equal or higher score and before every
      lower one, and the list is cut to ten. */
  lemma {:induction false} RankedInsertsInPlace(prior: seq<Entry>, e: Entry)
    ensures SortedDesc(prior) ==>
      var p := Place(e, prior);
      && (forall k :: 0 <= k < p ==> prior[k].score >= e.score)
      && (forall k :: p <= k < |prior| ==> prior[k].score < e.score)
      && Ranked(prior, e) == (prior[..p] + [e] + prior[p..])[..Min(|prior| + 1, MaxEntries)]
  {
    if SortedDesc(prior) {
      var p := Place(e, prior);
      SortedIsInsert(prior, e);
      forall k | p <= k < |prior|
        ensures prior[k].score < e.score
      {
        assert prior[p].score >= prior[k].score;
      }
    }
  }

  lemma SortedIsInsert(prior: seq<Entry>, e: Entry)
    requires SortedDesc(prior)
    ensures Sort(prior + [e]) == Insert(e, prior)
  {
    var s := prior + [e];
    assert s[..|s| - 1] == prior;
    SortSorted(prior);
  }
}

=== FILE: resolver.dfy ===
/** The collision and merge resolver of one frame: `Passes` sweeps over all
    pairs i < j of the frame's tokens. Overlapping tokens of one stage are
    scheduled to fuse (merge into the next stage, or vanish at the last
    stage); every other overlapping pair is handed to the contact oracle.
    Removals and additions are only recorded here and applied afterwards. */
module Resolver {
  import opened Stages
  import opened Entities

  /** One merge or vanish of the tokens at indices i < j, both of `stage`. */
  datatype Fusion = Fusion(i: nat, j: nat, stage: nat) {
    predicate IsVanish() {
      stage == LastStage
    }
  }

  /** State of the scan: the frame's tokens (moved in place by contacts), the
      indices scheduled for removal, the tokens to add, the score earned, the
      effects emitted, the fusions performed so far and the next free id. */
  datatype Scan = Scan(
    balls: seq<Token>,
    removed: set<nat>,
    added: seq<Token>,
    gained: int,
    effects: seq<Effect>,
    fusions: seq<Fusion>,
    nextId: nat)

  /** Indices taking part in the fusions. */
  function Members(fs: seq<Fusion>): set<nat> {
    if |fs| == 0 then {} else Members(fs[..|fs| - 1]) + {fs[|fs| - 1].i, fs[|fs| - 1].j}
  }

  /** Number of fusions that are merges (each adds one token). */
  function Merges(fs: seq<Fusion>): nat {
    if |fs| == 0 then 0
    else Merges(fs[..|fs| - 1]) + (if fs[|fs| - 1].IsVanish() then 0 else 1)
  }

  /** Number of fusions that are vanishes (each adds none). */
  function Vanishes(fs: seq<Fusion>): nat {
    if |fs| == 0 then 0
    else Vanishes(fs[..|fs| - 1]) + (if fs[|fs| - 1].IsVanish() then 1 else 0)
  }

  predicate StagesValid(fs: seq<Fusion>) {
    forall a :: 0 <= a < |fs| ==> ValidStage(fs[a].stage)
  }

  /** Total score of the fusions, each worth the reward of its stage. */
  function Rewards(fs: seq<Fusion>): int
    requires StagesValid(fs)
  {
    if |fs| == 0 then 0 else Rewards(fs[..|fs| - 1]) + Reward(fs[|fs| - 1].stage)
  }

  /** No index takes part in two fusions. */
  predicate Disjoint(fs: seq<Fusion>) {
    forall a, b :: 0 <= a < b < |fs| ==>
      fs[a].i != fs[b].i && fs[a].i != fs[b].j && fs[a].j != fs[b].i && fs[a].j != fs[b].j
  }

  /** Both tokens of every fusion are among the members. */
  lemma {:induction false} MembersContain(fs: seq<Fusion>)
    ensures forall a :: 0 <= a < |fs| ==> fs[a].i in Members(fs) && fs[a].j in Members(fs)
  {
    if |fs| > 0 {
      var init := fs[..|fs| - 1];
      MembersContain(init);
      forall a | 0 <= a < |fs| - 1
        ensures fs[a].i in Members(fs) && fs[a].j in Members(fs)
      {
        assert init[a] == fs[a];
      }
    }
  }

  lemma {:induction false} RewardsNonNegative(fs: seq<Fusion>)
    requires StagesValid(fs)
    ensures Rewards(fs) >= 0
  {
    if |fs| > 0 {
      RewardsNonNegative(fs[..|fs| - 1]);
    }
  }

  /** Every fusion is a merge or a vanish. */
  lemma {:induction false} MergesPlusVanishes(fs: seq<Fusion>)
    ensures Merges(fs) + Vanishes(fs) == |fs|
  {
    if |fs| > 0 {
      MergesPlusVanishes(fs[..|fs| - 1]);
    }
  }

  /** The scan's bookkeeping agrees with its fusion log:
      - every fusion pairs two same-stage tokens i < j of the frame;
      - no token is in two fusions, and exactly their tokens are removed;
      - the score, the added tokens and the effects are those of the fusions;
      - added tokens carry consecutive fresh ids ending just below `nextId`. */
  ghost predicate Inv(sc: Scan) {
    && AllValid(sc.balls)
    && (forall a :: 0 <= a < |sc.fusions| ==>
          && sc.fusions[a].i < sc.fusions[a].j < |sc.balls|
          && sc.balls[sc.fusions[a].i].stage == sc.fusions[a].stage
          && sc.balls[sc.fusions[a].j].stage == sc.fusions[a].stage)
    && StagesValid(sc.fusions)
    && Disjoint(sc.fusions)
    && sc.removed == Members(sc.fusions)
    && (forall k :: k in sc.removed ==> k < |sc.balls|)
    && |sc.removed| == 2 * |sc.fusions|
    && sc.gained == Rewards(sc.fusions)
    && |sc.added| == Merges(sc.fusions)
    && |sc.added| <= sc.nextId
    && (forall k :: 0 <= k < |sc.added| ==>
          && sc.added[k].id == sc.nextId - |sc.added| + k
          && 0 < sc.added[k].stage <= LastStage)
    && |sc.effects| == |sc.fusions|
    && (forall a :: 0 <= a < |sc.fusions| ==> sc.effects[a].isVanish == sc.fusions[a].IsVanish())
  }

  /** `r` continues `sc`: the same tokens (possibly moved), and every log only grows. */
  ghost predicate Extends(sc: Scan, r: Scan) {
    && |r.balls| == |sc.balls|
    && (forall k :: 0 <= k < |sc.balls| ==> SameIdentity(r.balls[k], sc.balls[k]))
    && sc.fusions <= r.fusions
    && sc.added <= r.added
    && sc.effects <= r.effects
    && r.nextId - |r.added| == sc.nextId - |sc.added|
  }

  lemma ExtendsTransitive(a: Scan, b: Scan, c: Scan)
    requires Extends(a, b) && Extends(b, c)
    ensures Extends(a, c)
  {
  }

  /** One visit of the pair (i, j). A pair with a member already scheduled
      for removal never fuses; if `j` is scheduled the pair is skipped
      entirely, while a scheduled `i` can still be pushed by a contact. */
  function VisitPair(sc: Scan, i: nat, j: nat, now: int, env: Physics): (r: Scan)
    requires i < j < |sc.balls|
    requires AllValid(sc.balls)
    ensures Extends(sc, r)
    ensures |r.fusions| <= |sc.fusions| + 1
    ensures |r.fusions| == |sc.fusions| + 1 <==>
              && i !in sc.removed && j !in sc.removed
              && env.overlap(sc.balls[i], sc.balls[j])
              && sc.balls[i].stage == sc.balls[j].stage
    ensures |r.fusions| == |sc.fusions| ==>
              && r.removed == sc.removed && r.added == sc.added && r.gained == sc.gained
              && r.effects == sc.effects && r.nextId == sc.nextId
    ensures |r.fusions| == |sc.fusions| + 1 ==>
              var b1, b2, s := sc.balls[i], sc.balls[j], sc.balls[i].stage;
              var mx, my := (b1.x + b2.x) / 2.0, (b1.y + b2.y) / 2.0;
              && r.balls == sc.balls
              && r.fusions[|sc.fusions|] == Fusion(i, j, s)
              && r.removed == sc.removed + {i, j}
              && r.gained == sc.gained + Reward(s)
              && (s < LastStage ==>
                    && |r.added| == |sc.added| + 1
                    && r.nextId == sc.nextId + 1
                    && var t := r.added[|sc.added|];
                       && t.id == sc.nextId && t.stage == s + 1 && t.createdAt == now
                       && t.x == mx && t.y == my
                       && t.vx == (b1.vx + b2.vx) / 2.0
                       && (var vy := (b1.vy + b2.vy) / 2.0 - 2.0; t.vy == if vy < -1.0 then vy else -1.0)
                       && r.effects == sc.effects + [Effect(mx, my, s + 1, false)])
              && (s == LastStage ==>
                    && r.added == sc.added && r.nextId == sc.nextId
                    && r.gained == sc.gained + VanishBonus
                    && r.effects == sc.effects + [Effect(mx, my, s, true)])
    ensures j in sc.removed || !env.overlap(sc.balls[i], sc.balls[j]) ==> r == sc
    ensures forall k :: 0 <= k < |sc.balls| && k != i && k != j ==> r.balls[k] == sc.balls[k]
    ensures j !in sc.removed && env.overlap(sc.balls[i], sc.balls[j]) && |r.fusions| == |sc.fusions| ==>
              var m := env.contact(sc.balls[i], sc.balls[j]);
              r == sc.(balls := sc.balls[i := WithMotion(sc.balls[i], m.0)][j := WithMotion(sc.balls[j], m.1)])
    ensures Inv(sc) ==> Inv(r)
  {
    if j in sc.removed then sc
    else
      var b1, b2 := sc.balls[i], sc.balls[j];
      if !env.overlap(b1, b2) then sc
      else if b1.stage == b2.stage && i !in sc.removed && j !in sc.removed then
        var mx, my := (b1.x + b2.x) / 2.0, (b1.y + b2.y) / 2.0;
        var f := Fusion(i, j, b1.stage);
        var r :=
          if b1.stage == LastStage then
            sc.(removed := sc.removed + {i, j},
                gained := sc.gained + VanishBonus,
                effects := sc.effects + [Effect(mx, my, b1.stage, true)],
                fusions := sc.fusions + [f])
          else
            var vy := (b1.vy + b2.vy) / 2.0 - 2.0;
            var t := Token(sc.nextId, mx, my, (b1.vx + b2.vx) / 2.0, if vy < -1.0 then vy else -1.0,
                           b1.stage + 1, now);
            sc.(removed := sc.removed + {i, j},
                added := sc.added + [t],
                gained := sc.gained + Table[b1.stage + 1].score,
                effects := sc.effects + [Effect(mx, my, b1.stage + 1, false)],
                fusions := sc.fusions + [f],
                nextId := sc.nextId + 1);
        FuseKeepsInv(sc, r, i, j);
        r
      else
        var m := env.contact(b1, b2);
        sc.(balls := sc.balls[i := WithMotion(b1, m.0)][j := WithMotion(b2, m.1)])
  }

  /** Appending one fusion of two unscheduled same-stage tokens keeps the invariant. */
  lemma FuseKeepsInv(sc: Scan, r: Scan, i: nat, j: nat)
    requires i < j < |sc.balls|
    requires i !in sc.removed && j !in sc.removed
    requires sc.balls[i].stage == sc.balls[j].stage
    requires r.balls == sc.balls
    requires r.fusions == sc.fusions + [Fusion(i, j, sc.balls[i].stage)]
    requires r.removed == sc.removed + {i, j}
    requires |r.effects| == |sc.effects| + 1 && r.effects[..|sc.effects|] == sc.effects
    requires r.effects[|sc.effects|].isVanish == (sc.balls[i].stage == LastStage)
    requires sc.balls[i].stage == LastStage ==> r.added == sc.added && r.nextId == sc.nextId
    requires sc.balls[i].stage != LastStage ==>
               && |r.added| == |sc.added| + 1 && r.added[..|sc.added|] == sc.added
               && r.nextId == sc.nextId + 1
               && r.added[|sc.added|].id == sc.nextId
               && r.added[|sc.added|].stage == sc.balls[i].stage + 1
    requires ValidStage(sc.balls[i].stage) ==> r.gained == sc.gained + Reward(sc.balls[i].stage)
    ensures Inv(sc) ==> Inv(r)
  {
    if Inv(sc) {
      FuseKeepsLog(sc, r, i, j);
      FuseKeepsOutputs(sc, r, i, j);
    }
  }

  /** The fusion-log half of `FuseKeepsInv`: the new fusion is well placed
      and disjoint from the others, and exactly its two tokens join the removals. */
  lemma FuseKeepsLog(sc: Scan, r: Scan, i: nat, j: nat)
    requires Inv(sc)
    requires i < j < |sc.balls|
    requires i !in sc.removed && j !in sc.removed
    requires sc.balls[i].stage == sc.balls[j].stage
    requires r.balls == sc.balls
    requires r.fusions == sc.fusions + [Fusion(i, j, sc.balls[i].stage)]
    requires r.removed == sc.removed + {i, j}
    ensures forall a :: 0 <= a < |r.fusions| ==>
              && r.fusions[a].i < r.fusions[a].j < |r.balls|
              && r.balls[r.fusions[a].i].stage == r.fusions[a].stage
              && r.balls[r.fusions[a].j].stage == r.fusions[a].stage
    ensures StagesValid(r.fusions) && Disjoint(r.fusions) && r.removed == Members(r.fusions)
    ensures (forall k :: k in r.removed ==> k < |r.balls|) && |r.removed| == 2 * |r.fusions|
  {
    var fs := r.fusions;
    assert fs[..|sc.fusions|] == sc.fusions;
    DisjointAppend(sc.fusions, Fusion(i, j, sc.balls[i].stage));
    assert |r.removed| == 2 * |fs| by {
      assert |sc.removed + {i}| == |sc.removed| + 1;
      assert sc.removed + {i, j} == (sc.removed + {i}) + {j};
    }
  }

  /** The output half of `FuseKeepsInv`: score, added tokens and effects
      still match the log. */
  lemma FuseKeepsOutputs(sc: Scan, r: Scan, i: nat, j: nat)
    requires Inv(sc)
    requires i < j < |sc.balls|
    requires r.fusions == sc.fusions + [Fusion(i, j, sc.balls[i].stage)]
    requires |r.effects| == |sc.effects| + 1 && r.effects[..|sc.effects|] == sc.effects
    requires r.effects[|sc.effects|].isVanish == (sc.balls[i].stage == LastStage)
    requires sc.balls[i].stage == LastStage ==> r.added == sc.added && r.nextId == sc.nextId
    requires sc.balls[i].stage != LastStage ==>
               && |r.added| == |sc.added| + 1 && r.added[..|sc.added|] == sc.added
               && r.nextId == sc.nextId + 1
               && r.added[|sc.added|].id == sc.nextId
               && r.added[|sc.added|].stage == sc.balls[i].stage + 1
    requires ValidStage(sc.balls[i].stage) ==> r.gained == sc.gained + Reward(sc.balls[i].stage)
    ensures StagesValid(r.fusions) && r.gained == Rewards(r.fusions)
    ensures |r.added| == Merges(r.fusions) && |r.added| <= r.nextId
    ensures forall k :: 0 <= k < |r.added| ==>
              && r.added[k].id == r.nextId - |r.added| + k
              && 0 < r.added[k].stage <= LastStage
    ensures |r.effects| == |r.fusions|
    ensures forall a :: 0 <= a < |r.fusions| ==> r.effects[a].isVanish == r.fusions[a].IsVanish()
  {
    var fs := r.fusions;
    var n := |sc.fusions|;
    assert fs[..n] == sc.fusions;
    assert StagesValid(fs);
    forall a | 0 <= a < |fs|
      ensures r.effects[a].isVanish == fs[a].IsVanish()
    {
      if a < n {
        assert r.effects[a] == sc.effects[a];
      }
    }
    forall k | 0 <= k < |r.added|
      ensures r.added[k].id == r.nextId - |r.added| + k && 0 < r.added[k].stage <= LastStage
    {
      if k < |sc.added| {
        assert r.added[k] == sc.added[k];
      }
    }
  }

  /** A fusion of two tokens in no earlier fusion keeps the log disjoint. */
  lemma DisjointAppend(fs: seq<Fusion>, f: Fusion)
    requires Disjoint(fs)
    requires f.i != f.j && f.i !in Members(fs) && f.j !in Members(fs)
    ensures Disjoint(fs + [f])
  {
    MembersContain(fs);
    var gs := fs + [f];
    forall a, b | 0 <= a < b < |gs|
      ensures gs[a].i != gs[b].i && gs[a].i != gs[b].j && gs[a].j != gs[b].i && gs[a].j != gs[b].j
    {
      if b == |fs| {
        assert gs[a] == fs[a];
      } else {
        assert gs[a] == fs[a] && gs[b] == fs[b];
      }
    }
  }

  /** No two of `balls` at indices a < b overlap, for every a in [lo, hi). */
  predicate ApartFrom(balls: seq<Token>, env: Physics, lo: nat, hi: nat) {
    forall a, b :: lo <= a < hi && a < b < |balls| ==> !env.overlap(balls[a], balls[b])
  }

  /** `f` names the one overlapping pair of `balls`: its two tokens share
      the stage `f.stage`, and no other pair i < j overlaps. */
  predicate SoleOverlap(balls: seq<Token>, env: Physics, f: Fusion) {
    && f.i < f.j < |balls|
    && env.overlap(balls[f.i], balls[f.j])
    && balls[f.i].stage == f.stage && balls[f.j].stage == f.stage
    && forall a, b :: 0 <= a < b < |balls| && (a != f.i || b != f.j) ==> !env.overlap(balls[a], balls[b])
  }

  /** One visit while `f` is the sole overlapping pair: nothing moves, and
      the only fusion that can happen is `f`, on its first visit. */
  lemma SoleVisit(sc: Scan, i: nat, j: nat, now: int, env: Physics, f: Fusion)
    requires i < j < |sc.balls|
    requires Inv(sc) && SoleOverlap(sc.balls, env, f) && sc.fusions <= [f]
    ensures var next := VisitPair(sc, i, j, now, env);
      && next.balls == sc.balls && next.fusions <= [f]
      && (sc.fusions == [] && i == f.i && j == f.j ==> next.fusions == [f])
  {
    if i != f.i || j != f.j {
      assert !env.overlap(sc.balls[i], sc.balls[j]);
    } else if sc.fusions == [] {
      assert sc.removed == {};
    } else {
      assert sc.fusions == [f];
      assert sc.fusions[..0] == [];
      assert j in sc.removed;
    }
  }

  /** `SoleVisit` for every candidate pair at once. */
  lemma SoleVisits(sc: Scan, i: nat, j: nat, now: int, env: Physics)
    requires i < j < |sc.balls| && Inv(sc)
    ensures forall f :: SoleOverlap(sc.balls, env, f) && sc.fusions <= [f] ==>
              var next := VisitPair(sc, i, j, now, env);
              && next.balls == sc.balls && next.fusions <= [f]
              && (sc.fusions == [] && i == f.i && j == f.j ==> next.fusions == [f])
  {
    forall f | SoleOverlap(sc.balls, env, f) && sc.fusions <= [f]
      ensures var next := VisitPair(sc, i, j, now, env);
              && next.balls == sc.balls && next.fusions <= [f]
              && (sc.fusions == [] && i == f.i && j == f.j ==> next.fusions == [f])
    {
      SoleVisit(sc, i, j, now, env, f);
    }
  }

  /* The three nested loops of the scan, written as mutually recursive
     functions: each one hands over to the enclosing loop when it runs out. */

  /** Passes `pass`, ..., `Passes - 1` of the relaxation. */
  function PassesFrom(sc: Scan, pass: nat, now: int, env: Physics): (r: Scan)
    requires pass <= Passes
    requires Inv(sc)
    decreases Passes - pass, |sc.balls| + 1, 0, 0
    ensures Extends(sc, r)
    ensures Inv(r)
    ensures ApartFrom(sc.balls, env, 0, |sc.balls|) ==> r == sc
  {
    if pass == Passes then sc else RowsFrom(sc, pass, 0, now, env)
  }

  /** The outer loop of one pass: token i, i+1, ... each paired with every
      later token, except a token already scheduled for removal when its
      turn comes. */
  function RowsFrom(sc: Scan, pass: nat, i: nat, now: int, env: Physics): (r: Scan)
    requires pass < Passes && i <= |sc.balls|
    requires Inv(sc)
    decreases Passes - pass, |sc.balls| - i, 1, 0
    ensures Extends(sc, r)
    ensures Inv(r)
    ensures ApartFrom(sc.balls, env, 0, |sc.balls|) ==> r == sc
    ensures forall f :: SoleOverlap(sc.balls, env, f) && sc.fusions <= [f] ==>
              && r.balls == sc.balls && r.fusions <= [f]
              && (sc.fusions == [] && (i <= f.i || pass + 1 < Passes) ==> r.fusions == [f])
  {
    if i == |sc.balls| then PassesFrom(sc, pass + 1, now, env)
    else if i in sc.removed then RowsFrom(sc, pass, i + 1, now, env)
    else PairsFrom(sc, pass, i, i + 1, now, env)
  }

  /** The inner loop: pairs (i, j), (i, j+1), ... up to the last token. */
  function PairsFrom(sc: Scan, pass: nat, i: nat, j: nat, now: int, env: Physics): (r: Scan)
    requires pass < Passes && i < j <= |sc.balls|
    requires Inv(sc)
    decreases Passes - pass, |sc.balls| - i, 0, |sc.balls| - j
    ensures Extends(sc, r)
    ensures Inv(r)
    ensures ApartFrom(sc.balls, env, 0, |sc.balls|) ==> r == sc
    ensures forall f :: SoleOverlap(sc.balls, env, f) && sc.fusions <= [f] ==>
              && r.balls == sc.balls && r.fusions <= [f]
              && (sc.fusions == [] && ((i == f.i && j <= f.j) || i < f.i || pass + 1 < Passes) ==> r.fusions == [f])
  {
    if j == |sc.balls| then RowsFrom(sc, pass, i + 1, now, env)
    else
      var next := VisitPair(sc, i, j, now, env);
      SoleVisits(sc, i, j, now, env);
      var r := PairsFrom(next, pass, i, j + 1, now, env);
      ExtendsTransitive(sc, next, r);
      r
  }

  /** The whole resolver of one frame, starting with nothing scheduled and
      the session's next free id. */
  function Resolve(balls: seq<Token>, nextId: nat, now: int, env: Physics): (r: Scan)
    requires AllValid(balls)
    ensures |r.balls| == |balls|
    ensures forall k :: 0 <= k < |balls| ==> SameIdentity(r.balls[k], balls[k])
    ensures StagesValid(r.fusions)
    ensures forall a :: 0 <= a < |r.fusions| ==>
              && r.fusions[a].i < r.fusions[a].j < |balls|
              && balls[r.fusions[a].i].stage == r.fusions[a].stage
              && balls[r.fusions[a].j].stage == r.fusions[a].stage
    ensures r.nextId == nextId + |r.added|
    ensures forall k :: 0 <= k < |r.added| ==> r.added[k].id == nextId + k && 0 < r.added[k].stage <= LastStage
    ensures Disjoint(r.fusions) && r.removed == Members(r.fusions)
    ensures forall k :: k in r.removed ==> k < |balls|
    ensures |r.removed| == 2 * |r.fusions|
    ensures |r.added| == Merges(r.fusions)
    ensures r.gained == Rewards(r.fusions) && r.gained >= 0
    ensures ApartFrom(balls, env, 0, |balls|) ==>
              && r.balls == balls && r.fusions == [] && r.removed == {} && r.added == []
              && r.gained == 0 && r.effects == [] && r.nextId == nextId
  {
    var start := Scan(balls, {}, [], 0, [], [], nextId);
    var r := PassesFrom(start, 0, now, env);
    ScanFacts(start, r);
    r
  }

  /** The first visit of a scan with nothing scheduled is the pair (0, 1). */
  lemma ScanOpens(start: Scan, now: int, env: Physics)
    requires Inv(start) && start.removed == {} && |start.balls| >= 2
    ensures PassesFrom(start, 0, now, env) == PairsFrom(VisitPair(start, 0, 1, now, env), 0, 0, 2, now, env)
  {
    assert RowsFrom(start, 0, 0, now, env) == PairsFrom(start, 0, 0, 1, now, env);
  }

  /** The scan starts with the pair (0, 1): when the first two tokens
      overlap and share a stage, they are the frame's first fusion. */
  lemma FirstPairFuses(balls: seq<Token>, nextId: nat, now: int, env: Physics)
    requires AllValid(balls)
    requires |balls| >= 2
    requires env.overlap(balls[0], balls[1]) && balls[0].stage == balls[1].stage
    ensures var r := Resolve(balls, nextId, now, env);
      |r.fusions| > 0 && r.fusions[0] == Fusion(0, 1, balls[0].stage)
  {
    var start := Scan(balls, {}, [], 0, [], [], nextId);
    ScanOpens(start, now, env);
    var next := VisitPair(start, 0, 1, now, env);
    assert next.fusions == [Fusion(0, 1, balls[0].stage)];
  }

  /** Every pair i < j is visited: when exactly one pair of tokens
      overlaps and they share a stage, the frame fuses exactly that pair and
      moves nothing. */
  lemma SolePairFuses(balls: seq<Token>, nextId: nat, now: int, env: Physics, i0: nat, j0: nat)
    requires AllValid(balls)
    requires i0 < j0 < |balls|
    requires env.overlap(balls[i0], balls[j0]) && balls[i0].stage == balls[j0].stage
    requires forall a, b :: 0 <= a < b < |balls| && (a != i0 || b != j0) ==> !env.overlap(balls[a], balls[b])
    ensures var r := Resolve(balls, nextId, now, env);
      r.balls == balls && r.fusions == [Fusion(i0, j0, balls[i0].stage)]
  {
    var start := Scan(balls, {}, [], 0, [], [], nextId);
    assert SoleOverlap(balls, env, Fusion(i0, j0, balls[i0].stage));
    assert PassesFrom(start, 0, now, env) == RowsFrom(start, 0, 0, now, env);
  }

  /** What a finished scan, started with nothing scheduled, says about the frame's tokens. */
  lemma ScanFacts(start: Scan, r: Scan)
    requires start.removed == {} && start.added == [] && start.fusions == []
    requires Inv(r) && Extends(start, r)
    ensures forall a :: 0 <= a < |r.fusions| ==>
              && r.fusions[a].i < r.fusions[a].j < |start.balls|
              && start.balls[r.fusions[a].i].stage == r.fusions[a].stage
              && start.balls[r.fusions[a].j].stage == r.fusions[a].stage
    ensures r.nextId == start.nextId + |r.added|
    ensures forall k :: 0 <= k < |r.added| ==> r.added[k].id == start.nextId + k && 0 < r.added[k].stage <= LastStage
    ensures Rewards(r.fusions) >= 0
  {
    RewardsNonNegative(r.fusions);
  }
}

=== FILE: stages.dfy ===
/** Static configuration of the game: the container geometry, the physics
    constants and the table of growth stages a token passes through. */
module Stages {

  const ContainerWidth: real := 350.0
  const ContainerHeight: real := 500.0
  const WallThickness: real := 12.0
  const GameOverLine: real := 100.0
  const DropY: real := 50.0
  const PunchCost: int := 50
  const Gravity: real := 0.35
  const Friction: real := 0.75
  const Bounce: real := 0.3
  const MaxSpeed: real := 12.0

  /** Score of a vanish, when two last-stage tokens meet. */
  const VanishBonus: int := 100
  /** Relaxation passes of the pair scan in one frame. */
  const Passes: nat := 8
  /** A token younger than this (in milliseconds) never ends the game. */
  const SettleAge: int := 2000
  /** Bounds of the drop position set by pointer movement. */
  const DropMin: real := 50.0
  const DropMax: real := ContainerWidth - 50.0

  /** One growth stage: its display name, its diameter and the score for producing it. */
  datatype StageDef = StageDef(name: string, size: real, score: int)

  const Table: seq<StageDef> := [
    StageDef("たまご", 30.0, 1),
    StageDef("ひよこぺんたろう", 45.0, 3),
    StageDef("こぺんたろう", 60.0, 6),
    StageDef("ぺんたろう", 80.0, 10),
    StageDef("おおぺんたろう", 100.0, 15),
    StageDef("キングぺんたろう", 130.0, 21),
    StageDef("エンペラーぺんたろう", 160.0, 28)
  ]

  /** The terminal stage: two of these vanish instead of merging. */
  const LastStage: nat := |Table| - 1

  predicate ValidStage(stage: nat) {
    stage < |Table|
  }

  /** Physical radius of a token: 90% of half its drawn size. */
  function Radius(stage: nat): (r: real)
    requires ValidStage(stage)
    ensures 13.5 <= r <= 72.0
    ensures 2.0 * r < ContainerWidth - 2.0 * WallThickness
  {
    Table[stage].size / 2.0 * 0.9
  }

  /** Points for one fusion of two tokens of `stage`: the score of the next
      stage for a merge, the flat bonus for a vanish. */
  function Reward(stage: nat): (p: int)
    requires ValidStage(stage)
    ensures p > 0
    ensures stage < LastStage ==> p == Table[stage + 1].score
    ensures stage == LastStage ==> p == VanishBonus
  {
    if stage == LastStage then VanishBonus else Table[stage + 1].score
  }

  /** Larger stages are bigger and worth more; stage 6 is the last one. */
  lemma StagesGrow()
    ensures LastStage == 6
    ensures forall a, b :: 0 <= a < b < |Table| ==> Table[a].size < Table[b].size
    ensures forall a, b :: 0 <= a < b < |Table| ==> Table[a].score < Table[b].score
    ensures forall a, b :: 0 <= a < b < |Table| ==> Radius(a) < Radius(b)
  {
  }
}

=== FILE: store.dfy ===
/** The deferred update of the entity store at the end of the pair scan:
    tokens scheduled for removal are filtered out, keeping the others in
    their order, and the new tokens are appended in creation order. */
module Store {
  import opened Entities

  /** The indices in `removed` that are below `n`. */
  function RemovedBelow(removed: set<nat>, n: nat): set<nat> {
    set k | k in removed && k < n
  }

  /** The indices below `n` that survive, in increasing order. */
  function Survivors(n: nat, removed: set<nat>): (idx: seq<nat>)
    ensures forall a :: 0 <= a < |idx| ==> idx[a] < n && idx[a] !in removed
    ensures forall k :: 0 <= k < n && k !in removed ==> k in idx
    ensures forall a, b :: 0 <= a < b < |idx| ==> idx[a] < idx[b]
    ensures |idx| + |RemovedBelow(removed, n)| == n
  {
    if n == 0 then []
    else
      var prev := Survivors(n - 1, removed);
      assert RemovedBelow(removed, n) ==
        RemovedBelow(removed, n - 1) + (if n - 1 in removed then {n - 1} else {});
      if n - 1 in removed then prev else prev + [n - 1]
  }

  /** With nothing removed, every index survives in place. */
  lemma {:induction false} NothingRemoved(n: nat)
    ensures Survivors(n, {}) == seq(n, k => k)
  {
    if n > 0 {
      NothingRemoved(n - 1);
    }
  }

  /** The tokens at the surviving indices, in their original order. */
  function Keep(balls: seq<Token>, removed: set<nat>): (r: seq<Token>)
    ensures var idx := Survivors(|balls|, removed);
      |r| == |idx| && forall a :: 0 <= a < |idx| ==> r[a] == balls[idx[a]]
  {
    var idx := Survivors(|balls|, removed);
    seq(|idx|, a requires 0 <= a < |idx| => balls[idx[a]])
  }

  /** The store after the scan. When nothing was scheduled the store is left
      as it was, which is what filtering nothing and appending nothing gives. */
  function ApplyChanges(balls: seq<Token>, removed: set<nat>, added: seq<Token>): (r: seq<Token>)
    ensures var idx := Survivors(|balls|, removed);
      && |r| == |idx| + |added|
      && (forall a :: 0 <= a < |idx| ==> r[a] == balls[idx[a]])
      && r[|idx|..] == added
      && (forall a :: 0 <= a < |added| ==> r[|idx| + a] == added[a])
    ensures (forall k :: k in removed ==> k < |balls|) ==> |r| == |balls| - |removed| + |added|
  {
    BelowBound(removed, |balls|);
    if |removed| > 0 || |added| > 0 then Keep(balls, removed) + added
    else
      NothingRemoved(|balls|);
      balls
  }

  lemma BelowBound(removed: set<nat>, n: nat)
    ensures (forall k :: k in removed ==> k < n) ==> RemovedBelow(removed, n) == removed
  {
  }

  /** Filtering keeps the ids increasing, and the new tokens, whose ids are
      above every old one and increasing, extend that order. */
  lemma ApplyKeepsIdsIncreasing(balls: seq<Token>, removed: set<nat>, added: seq<Token>, bound: nat)
    requires IdsIncreasing(balls) && IdsBelow(balls, bound)
    requires IdsIncreasing(added)
    requires forall k :: 0 <= k < |added| ==> added[k].id >= bound
    ensures IdsIncreasing(ApplyChanges(balls, removed, added))
  {
    var r := ApplyChanges(balls, removed, added);
    var idx := Survivors(|balls|, removed);
    forall a, b | 0 <= a < b < |r|
      ensures r[a].id < r[b].id
    {
      if b < |idx| {
        assert idx[a] < idx[b];
      } else if a >= |idx| {
        assert r[a] == added[a - |idx|] && r[b] == added[b - |idx|];
      } else {
        assert r[b] == added[b - |idx|];
      }
    }
  }
}
